=== FILE: README.md ===
# Inkwell blog core in Dafny

A model of the domain layer of Inkwell, a small Django blog. Authors write posts. Readers leave threaded comments. The model covers:

- what `BlogPost.save` does to a post: slug search, publication stamp, excerpt;
- the validation a published post must pass;
- the delete rules of the foreign keys;
- the request handlers for creating, editing and deleting posts and adding comments;
- the admin's computed columns and status filter;
- registration, which together with the author-creation hook keeps one author per user account.

Modules, one per component of the source:

| file | module | models |
|---|---|---|
| types.dfy | `Types` | nullable values, outcomes, ids, Python truthiness of optional text |
| seqs.dfy | `Seqs` | order-preserving `filter` over a query result |
| models.dfy | `Models` | `Author`, `BlogPost`, `Comment`, `Status`, `full_name`, `clean`, the `publishes` manager |
| slugs.dfy | `Slugs` | `generate_unique_slug` and the decimal suffix it appends |
| lifecycle.dfy | `Lifecycle` | `BlogPost.save`: slug, `published_at` stamp, excerpt |
| store.dfy | `Store` | the tables as maps keyed by id; `CASCADE` and `SET_NULL` deletes; referential integrity |
| views.dfy | `Views` | create/update/delete views, `test_func`, the comment form handler, the detail page's comment tree, the mail gate |
| admin.dfy | `Admin` | `short_content`, `StatusFilter`, `author_name` |
| accounts.dfy | `Accounts` | `clean_email`, `create_or_update_author`, the register view |

Outside inputs are parameters:

- Django's `slugify` is a function-typed parameter with no assumed properties.
- `timezone.now()` is a `now: Time` parameter.
- `uuid4()` is a fresh-id parameter. Its `requires` says the id is not already a key, as a fresh UUID is.
- The form's field-level validation is a `fieldsValid: bool` parameter.
- The mail service's failure is a `mailFails: bool` parameter.

Field-by-field notes:

- A comment POST's `parent_id` is a string. Empty or missing means a top-level comment.
- A parent id naming no stored comment fails the foreign key. The model answers `ServerError` and stores nothing.
- A requester carries the author profile that `request.user.author` finds, or none when the account has no author (its author hook was refused). Reading a missing profile raises. So the create and comment handlers answer `ServerError` for such an account once the form is valid. The update and delete `test_func` does the same for a non-superuser; a superuser never reads it.
- The form's `clean()` is applied on create and update, as a Django model form runs it inside `is_valid()`.

Behaviour of the code as written, which the model keeps:

- Comment cascade follows the parent link, not the post. The parent id is trusted, so a reply on post B to a comment on post A is deleted when A is deleted. `Store.Cascade` is therefore the reply-closure of the starting comments. "Deleting a post removes exactly its comments" is proved only under `SameThread`, which says every reply stays on its parent's post (`Store.DeletePostRemovesExactlyItsComments`).
- The update view stores the edit, then reads `author.user`. For a post whose author was deleted, the request fails after the save (`Views.StoreUpdate`). Under Django's default autocommit the change stays stored.
- The author-creation hook copies the user's email into a unique column. For accounts created outside registration, the hook can be refused by the table (`Accounts.OnUserSaved`). Under autocommit the account then stays stored without an author. The register form's `clean_email` rules this out for registration (`Accounts.RegisterNeverRefusesProfile`).
- A title that slugifies to the empty string is stored with the empty slug when no post has it. The create request itself then fails: the redirect to the detail page cannot be reversed for an empty slug, so the post stays stored, the response is a server error and no mail is attempted (`Views.EmptySlugCreateFails`). The same holds for any slug outside the URL's `[-a-zA-Z0-9_]+` pattern. On the post's next save the empty slug is found taken, by the post itself, and the slug moves to "-1" (`Slugs.EmptySlugMovesOnResave`).
- Status `clean()` checks the missing date before the missing flag. Draft and Archived posts are never checked.

## Model

| member | source | states |
|---|---|---|
| Models.ParseStatus | blogs/models.py:48-51 | a stored status value reads back as the status it is the value of; other strings are not statuses |
| Models.FullName | blogs/models.py:28-30 | an author's full name is the first name, one space, then the last name |
| Models.Clean | blogs/models.py:97-105 | validation passes iff the status is not Published or both a date and the flag are set; a missing date is reported first, a missing flag only when the date is present |
| Models.CleanIgnoresUnpublished | blogs/models.py:97-98 | a Draft or Archived post passes validation whatever its published flag and date say |
| Models.PublishedPosts | blogs/models.py:40-42 | the `publishes` manager keeps exactly the posts flagged published, each as often as it occurs, in their original order |
| Models.PublishedAt | blogs/models.py:44-45 | the `published_at` query keeps exactly the published posts whose date equals the argument, a null argument selecting the undated ones, each as often as it occurs, in order |
| Seqs.Filter | blogs/admin.py:19-20 | a queryset filter keeps exactly the items meeting the condition, every occurrence of each, and drops every other, as an ordered subsequence of its input |
| Slugs.DecimalRoundTrip | blogs/models.py:93 | the counter's decimal text reads back as the counter, so distinct counters give distinct suffixes |
| Slugs.TakenCandidatesBound | blogs/models.py:92-94 | if the first n candidates are all taken, at least n slugs are taken; this bounds the search loop |
| Slugs.GenerateUniqueSlug | blogs/models.py:88-95 | the result is not taken; it is `slugify(title)` when that is free, otherwise `base-k` for the smallest k >= 1 whose variant is free |
| Slugs.UniqueSlugDeterministic | blogs/models.py:88-95 | the search result is determined by the base slug and the taken set alone |
| Slugs.SameTitleGetsSuffix | blogs/models.py:89-94 | when the base slug is taken, the result is the base, a hyphen and a decimal number, and differs from the base |
| Slugs.EmptySlugMovesOnResave | blogs/models.py:79-80 | a post stored with the empty slug finds that slug taken on its next save and gets "-1" |
| Lifecycle.BeforeLast | blogs/models.py:84 | `rsplit(" ", 1)[0]` is the part before the last space, or the whole text when it has no space; always a prefix |
| Lifecycle.Excerpt | blogs/models.py:83-84 | the excerpt ends in "...", is at most 250 characters, its body is a prefix of the content, and the body is the 247-prefix cut before its last space, or the whole 247-prefix when it has none |
| Lifecycle.ShortContentLosesLastWord | blogs/models.py:84 | short content with a space still loses its last word: "hello world" gives "hello..." |
| Lifecycle.Normalise | blogs/models.py:79-84 | a set slug is kept; an existing `published_at` is never overwritten; an unpublished post's date is untouched; a first publication is stamped with now; an excerpt is derived only for non-empty content with a blank excerpt; no other field changes |
| Lifecycle.Save | blogs/models.py:78-86 | as above, with the slug of a slug-less post being the unique-slug search result over the stored slugs |
| Lifecycle.NormaliseIdempotent | blogs/models.py:79-84 | saving a saved post again, at any later time, changes nothing |
| Lifecycle.EditKeepsSlugAndExcerpt | blogs/models.py:79-84 | editing title or content of a saved post keeps its slug and its excerpt |
| Store.SlugsInUse | blogs/models.py:92 | the taken set is exactly the slugs of the stored posts |
| Store.StorePostKeepsSlugsUnique | blogs/models.py:64 | storing a post that keeps its old slug or takes an unused one keeps slugs unique |
| Store.StorePostKeepsValid | blogs/models.py:66-68 | storing a post whose author exists keeps every foreign key intact |
| Store.Cascade | blogs/models.py:128-130 | the comments a cascade deletes include the starting ones, are stored comments, and include every reply to each of them |
| Store.CascadeLeast | blogs/models.py:128-130 | the cascade lies inside every reply-closed set containing its starting comments, so it deletes nothing it need not |
| Store.CascadeGrounded | blogs/models.py:128-130 | every cascaded comment is a starting comment or a reply to a cascaded comment |
| Store.RemoveComments | blogs/models.py:128-130 | removing a set of stored comments removes exactly their reply-closure, leaves every survivor and every other table unchanged, and leaves no reply whose parent was removed |
| Store.DeletePost | blogs/models.py:131-133 | deleting a post removes it and exactly the reply-closure of the comments on it, leaves other posts and surviving comments unchanged, and leaves no reply whose parent was removed |
| Store.DeletePostRemovesExactlyItsComments | blogs/models.py:128-133 | when replies stay on their parent's post, exactly the comments on the deleted post are removed |
| Store.DeleteComment | blogs/models.py:128-130 | deleting a stored comment removes exactly the comment and its reply-closure; survivors are unchanged; deleting an unknown id changes nothing |
| Store.DeleteCommentSparesOtherRoots | blogs/models.py:128-130 | every other top-level comment survives the deletion of a comment |
| Store.DeleteAuthor | blogs/models.py:66-68 | deleting an author removes only that author; every post and comment survives, with the author cleared exactly where it was the deleted one |
| Store.DeletePostPreservesValid | blogs/models.py:131-133 | post deletion keeps every foreign key intact |
| Store.DeleteCommentPreservesValid | blogs/models.py:128-130 | comment deletion keeps every foreign key intact |
| Store.DeleteAuthorPreservesValid | blogs/models.py:120-126 | author deletion keeps every foreign key intact |
| Views.Notify | blogs/views.py:27-28 | a notification is attempted iff the address is non-empty, to that address; a mail failure only marks it undelivered |
| Views.CreatePost | blogs/views.py:24-48 | an invalid form stores nothing; an account without an author profile gets a server error and nothing is stored; otherwise the new post is stored under the fresh id with the requester's author, a unique slug and the save normalisation, and nothing else changes; then a slug the detail URL cannot carry ends the request in a server error with no mail, and any other slug redirects to the post with a notice iff the author's address is non-empty |
| Views.StoreNew | blogs/views.py:26-48 | storing a new post whose author exists under a fresh id keeps every foreign key intact and, when its slug is not in use, keeps slugs distinct; the redirect fails for a slug outside the URL pattern, leaving the post stored with no mail; otherwise the notice is gated on the author's address |
| Views.EmptySlugCreateFails | blogs/views.py:26-27 | a new post with the empty slug is stored, and its create request ends in a server error with no mail |
| Views.UpdatePost | blogs/views.py:62-86 | a missing post is 404; a non-superuser without an author profile gets a server error from `test_func`; a requester who is neither superuser nor the author gets 403; an invalid form or failing `clean` changes nothing; otherwise only that post is replaced by the saved edit, with its slug kept; the store changes only for a superuser or the post's author |
| Views.StoreUpdate | blogs/views.py:59-86 | the edit is stored first; then a slug outside the URL pattern fails the redirect, and an author-less post fails the address read, each with no mail; otherwise the notice is gated on the author's address |
| Views.DeletePostRequest | blogs/views.py:97-131 | 404 for a missing post; a server error for a non-superuser without an author profile; 403 and no change for anyone but a superuser or the author; an author-less post errors before anything is deleted; otherwise the post is deleted with its comments and the notice is gated |
| Views.OnlyOwnerOrSuperuserDeletes | blogs/views.py:97-100 | a delete changes the store only for a stored post and a superuser or that post's author, in the view as written and as fixed; a non-superuser without a profile gets a server error |
| Views.EveryRequesterHasAProfile | blogs/signals.py:9-16 | while every account has its author, `user.author` is always found, so no handler fails on the requester's profile |
| Views.OrphanPostCannotBeDeleted | blogs/views.py:105 | a post whose author was deleted stays, and the request ends in 403 or a server error |
| Views.DeletePostRequestFixed | blogs/views.py:102-131 | with an absent author treated as no address, every authorised delete removes the post and its comments |
| Views.AuthorisedDeleteSucceeds | blogs/views.py:97-131 | with the fix, an authorised delete always removes the post and keeps integrity, and agrees with the view as written wherever that one does not fail |
| Views.MailFailureIsInvisible | blogs/views.py:110-128 | a failing mail service changes neither the store nor the response of a deletion |
| Views.ParentOf | blogs/views.py:166-168 | the parent is set to the submitted id exactly when that id is non-empty |
| Views.AddComment | blogs/views.py:159-171 | a valid comment is stored with the requester's author, the viewed post and the submitted parent, unchecked against the post; an invalid form stores nothing; an account without an author profile or an unknown parent id gets a server error and nothing is stored |
| Views.AddCommentCanCrossPosts | blogs/views.py:166-168 | a parent id from another post is accepted, breaking the same-thread invariant |
| Views.AddCommentKeepsSameThread | blogs/views.py:163-168 | an honest parent id keeps every reply on its parent's post |
| Views.TopLevelComments | blogs/views.py:151-157 | the detail page lists exactly the comments of that post whose parent is null |
| Views.RepliesOf | blogs/views.py:153-155 | the replies fetched for a comment are exactly the comments whose parent it is |
| Views.CommentTree | blogs/views.py:151-157 | the tree has the listed comments as roots, each with its replies |
| Views.CommentTreeShowsEachCommentOnce | blogs/views.py:153-155 | when threads stay on their post and are at most two deep, each comment of the post appears in the tree exactly once and nothing else appears |
| Views.NewTopLevelCommentIsListed | blogs/views.py:159-171 | a comment posted without a parent is listed on its post's page |
| Admin.ShortContent | blogs/admin.py:53-54 | content of at most 75 characters is shown whole; longer content as its first 75 characters plus "...", 78 in all |
| Admin.ShortContentIsBoundedPrefix | blogs/admin.py:54 | the column is at most 78 characters, and without an added "..." it is a prefix of the content |
| Admin.StatusLookups | blogs/admin.py:11-16 | the filter offers three choices, each a status value with that status's label |
| Admin.StatusLookupsCoverStatus | blogs/admin.py:11-16 | every status is offered, and no value twice |
| Admin.StatusFilterQueryset | blogs/admin.py:18-21 | no chosen value leaves the list unchanged; a chosen value keeps exactly the posts with that stored status, every occurrence, in order |
| Admin.StatusFilterSelectsStatus | blogs/admin.py:18-21 | choosing an offered status keeps exactly the posts in that status, each as often as it occurs |
| Admin.AuthorName | blogs/admin.py:48-49 | "Anonymous" for a post without an author, else the author's full name |
| Admin.DeletedAuthorShowsAnonymous | blogs/admin.py:48-49 | once an author is deleted, their posts show as "Anonymous" |
| Accounts.CleanEmail | accounts/forms.py:24-28 | an email already held by an author is refused; any other is returned unchanged |
| Accounts.ProfileOf | blogs/signals.py:11-16 | the new author is linked to the user, with the user's email, first and last name |
| Accounts.OnUserSaved | blogs/signals.py:9-16 | a saved existing account changes nothing; a new one gets exactly one new author under the fresh id, unless the unique email or user column refuses it; existing authors are untouched |
| Accounts.ExactlyOneAuthorPerUser | blogs/models.py:23-26 | under the invariant each user account has exactly one author |
| Accounts.Register | accounts/views.py:17-25 | invalid fields or a duplicate email store nothing; a registration stores the account and exactly one author copied from the form |
| Accounts.NewAccountKeepsInvariant | blogs/signals.py:10-16 | a new account with an unused email plus its copied author keeps one author per user and distinct emails |
| Accounts.RegisterNeverRefusesProfile | accounts/forms.py:24-28 | in any store whose authors all belong to stored accounts, an account the form accepts always gets its author: the hook never refuses it |
| Accounts.RegisterPreservesInvariant | accounts/forms.py:24-28 | registration keeps one author per user and distinct author emails |
| Accounts.RegisterPreservesValid | accounts/views.py:19-20 | registration keeps every foreign key intact |

## Findings

| source | as written | input that shows it | evidently intended | confidence | as-written member | corrected member |
|---|---|---|---|---|---|---|
| blogs/views.py:105 | the delete view reads `self.object.author.user.email` unconditionally | a superuser deletes a post whose author was deleted (author set to null) | a post without an author is deleted with no notification, as for an empty address | not executed; high, the author key is declared nullable | Views.OrphanPostCannotBeDeleted | Views.DeletePostRequestFixed |

## Left out

- Mail sending, flash messages, the delete view's console logging (`print`), templates and redirects are left out. They are I/O and framework plumbing. Of URL reversing only its failure is modelled: the detail URL accepts exactly the slugs matching `[-a-zA-Z0-9_]+`. Only the attempt-iff-non-empty-address gate is modelled, plus a flag for delivery failure.
- Login, sessions, passwords and the username checks of `UserCreationForm` are left out. They belong to the identity provider; `fieldsValid` stands for their verdict.
- Django's `slugify` is an opaque parameter with no assumed properties.
- `timezone.now()` and `uuid4()` are parameters.
- The slug check-then-insert race and the database's own unique constraint on slug are left out. They are concurrency and storage-engine behaviour. `SlugsUnique` is proved kept by the handlers that store posts.
- Ordering by `-created_at` is left out. `created_at` and `updated_at` are not modelled, so the detail page's comments and replies are sets.
- Views.AddComment: parent ids must arrive in their stored spelling. The ORM's parsing of a UUID field, which also accepts upper case, braces and missing hyphens, is not modelled; ids are compared as text.
- Views.StoreUpdate: assumes Django's default autocommit. Under `ATOMIC_REQUESTS` the failing request's save would be rolled back, so the store would be unchanged.
- Accounts.Register: assumes autocommit for the `ProfileRefused` outcome. Under `ATOMIC_REQUESTS` the account's insert would be rolled back with the refused author, so nothing would be stored.
- Views.CreatePost: does not model the slug column's default 50-character width. A slug longer than that fails the insert on a backend that enforces column widths, such as PostgreSQL or strict MySQL; the request then errors and nothing is stored. SQLite stores it. `Views.UpdatePost` and `Slugs.GenerateUniqueSlug` share this gap.
- Views.CommentTree: does not state the newest-first order of roots and replies, because creation timestamps are not modelled.
- Pagination (`paginate_by = 2`), `prefetch_related` performance and the list view are left out.
- `comment_count` is left out; it is a display count.
- The post form's and comment form's widget declarations and admin display configuration are left out.
- `GenerateImagePath` and the image field are left out. They are file-system plumbing.
- Posts are addressed by id, not by the URL slug, in the views. Looking a slug up is routing. A post whose slug the URL pattern rejects cannot be reached by the detail, update or delete URLs at all; the model's answers for such a post describe requests the URLs never route.
- Deleting a user account, which cascades to its author, is left out. No view deletes accounts.

=== FILE: accounts.dfy ===
/** Registration and the author profile (accounts/forms.py, blogs/signals.py):
    the register form refuses an email some author already has, and every newly
    created user account gets an author profile copied from it. Together they
    keep one author per user and author emails distinct. */
module Accounts {
  import opened Types
  import opened Models
  import opened Store

  /** Why the register form is shown again. */
  datatype RegistrationError =
    | InvalidFields   // the account form's own checks failed
    | DuplicateEmail  // "An author with this email already exists."

  /** Some stored author already uses `email`. */
  predicate EmailTaken(authors: map<Uuid, Author>, email: string)
  {
    exists a :: a in authors && authors[a].email == email
  }

  /** `RegisterForm.clean_email`: a duplicate email is refused, any other passes
      through unchanged. Only reads the authors. */
  function CleanEmail(authors: map<Uuid, Author>, email: string): (r: Result<string, RegistrationError>)
    ensures r.Err? <==> exists a :: a in authors && authors[a].email == email
    ensures r.Err? ==> r.error == DuplicateEmail
    ensures r.Ok? ==> r.value == email
  {
    if EmailTaken(authors, email) then Err(DuplicateEmail) else Ok(email)
  }

  /** The author table's unique constraints rejected the new profile. */
  datatype IntegrityError = IntegrityError

  /** The profile a new user account gets: name and email copied from it. */
  function ProfileOf(uid: UserId, u: User): (a: Author)
    ensures a.user == uid && a.email == u.email
    ensures a.firstName == u.firstName && a.lastName == u.lastName
  {
    Author(uid, u.firstName, u.lastName, u.email)
  }

  /** `create_or_update_author`, run after user `uid` is saved: only a newly
      created account gets a profile, stored under the fresh id `id`; the table's
      unique email and unique user columns can refuse it. Existing profiles are
      never touched, and a saved existing account changes nothing. */
  function OnUserSaved(db: Db, uid: UserId, created: bool, id: Uuid): (r: Result<Db, IntegrityError>)
    requires uid in db.users
    requires id !in db.authors
    ensures !created ==> r == Ok(db)
    ensures created ==>
              (r.Err? <==> EmailTaken(db.authors, db.users[uid].email) ||
                           exists a :: a in db.authors && db.authors[a].user == uid)
    ensures created && r.Ok? ==>
              && r.value.users == db.users && r.value.posts == db.posts && r.value.comments == db.comments
              && r.value.authors.Keys == db.authors.Keys + {id}
              && r.value.authors[id] == ProfileOf(uid, db.users[uid])
              && (forall a :: a in db.authors ==> r.value.authors[a] == db.authors[a])
  {
    if !created then Ok(db)
    else if EmailTaken(db.authors, db.users[uid].email) ||
            exists a :: a in db.authors && db.authors[a].user == uid then Err(IntegrityError)
    else Ok(db.(authors := db.authors[id := ProfileOf(uid, db.users[uid])]))
  }

  /** One author per user account, and no two authors with the same email. */
  ghost predicate AccountsInvariant(db: Db)
  {
    && (forall a :: a in db.authors ==> db.authors[a].user in db.users)
    && (forall u :: u in db.users ==> exists a :: a in db.authors && db.authors[a].user == u)
    && (forall a, b :: a in db.authors && b in db.authors && a != b ==>
          db.authors[a].user != db.authors[b].user && db.authors[a].email != db.authors[b].email)
  }

  /** Under the invariant each user account has exactly one author. */
  lemma ExactlyOneAuthorPerUser(db: Db, u: UserId)
    requires AccountsInvariant(db)
    requires u in db.users
    ensures exists a :: a in db.authors && db.authors[a].user == u
    ensures forall a, b :: a in db.authors && b in db.authors ==>
                             (db.authors[a].user == u && db.authors[b].user == u ==> a == b)
  {
  }

  /** The fields of the register form that reach the account. */
  datatype RegistrationForm = RegistrationForm(username: string, email: string, firstName: string, lastName: string)

  /** How a registration ends. */
  datatype Registration =
    | Registered(db: Db)                         // the account and its author are stored
    | Rejected(reason: RegistrationError)        // the form is shown again; nothing is stored
    | ProfileRefused(db: Db)                     // the account is stored, its author is not

  /** `RegisterView.post`: form validation including `clean_email`, then the
      account is stored as user `uid`, which fires the profile hook with the
      fresh author id `id`. */
  function Register(db: Db, form: RegistrationForm, fieldsValid: bool, uid: UserId, id: Uuid): (r: Registration)
    requires uid !in db.users
    requires id !in db.authors
    ensures !fieldsValid ==> r == Rejected(InvalidFields)
    ensures fieldsValid && EmailTaken(db.authors, form.email) ==> r == Rejected(DuplicateEmail)
    ensures r.Registered? ==> r.db.users == db.users[uid := User(form.username, form.email, form.firstName, form.lastName, false)]
    ensures r.Registered? ==> r.db.authors == db.authors[id := Author(uid, form.firstName, form.lastName, form.email)]
    ensures r.Registered? ==> r.db.posts == db.posts && r.db.comments == db.comments
  {
    if !fieldsValid then Rejected(InvalidFields)
    else match CleanEmail(db.authors, form.email)
      case Err(e) => Rejected(e)
      case Ok(email) =>
        var db1 := db.(users := db.users[uid := User(form.username, email, form.firstName, form.lastName, false)]);
        match OnUserSaved(db1, uid, true, id)
        case Ok(db2) => Registered(db2)
        case Err(_) => ProfileRefused(db1)
  }

  /** A new account whose email no author uses, stored with its copied profile,
      keeps one author per user and author emails distinct. */
  lemma {:induction false} NewAccountKeepsInvariant(db: Db, uid: UserId, u: User, id: Uuid)
    requires AccountsInvariant(db)
    requires uid !in db.users && id !in db.authors
    requires !EmailTaken(db.authors, u.email)
    ensures AccountsInvariant(db.(users := db.users[uid := u], authors := db.authors[id := ProfileOf(uid, u)]))
  {
    var db2 := db.(users := db.users[uid := u], authors := db.authors[id := ProfileOf(uid, u)]);
    forall v | v in db2.users
      ensures exists a :: a in db2.authors && db2.authors[a].user == v
    {
      if v == uid {
        assert db2.authors[id].user == v;
      } else {
        var a :| a in db.authors && db.authors[a].user == v;
        assert db2.authors[a].user == v;
      }
    }
    forall a, b | a in db2.authors && b in db2.authors && a != b
      ensures db2.authors[a].user != db2.authors[b].user && db2.authors[a].email != db2.authors[b].email
    {
      if a == id {
        assert db.authors[b].user in db.users;
      } else if b == id {
        assert db.authors[a].user in db.users;
      }
    }
  }

  /** As long as every author belongs to a stored account, the author hook never
      refuses an account the register form lets through: `clean_email` has ruled
      out the unique email, and the new account has no author yet. */
  lemma RegisterNeverRefusesProfile(db: Db, form: RegistrationForm, fieldsValid: bool, uid: UserId, id: Uuid)
    requires uid !in db.users
    requires id !in db.authors
    requires forall a :: a in db.authors ==> db.authors[a].user in db.users
    ensures !Register(db, form, fieldsValid, uid, id).ProfileRefused?
    ensures fieldsValid && !EmailTaken(db.authors, form.email) ==> Register(db, form, fieldsValid, uid, id).Registered?
  {
    if fieldsValid && !EmailTaken(db.authors, form.email) {
      var db1 := db.(users := db.users[uid := User(form.username, form.email, form.firstName, form.lastName, false)]);
      assert !exists a :: a in db1.authors && db1.authors[a].user == uid;
    }
  }

  /** Registration keeps one author per user and author emails distinct. */
  lemma RegisterPreservesInvariant(db: Db, form: RegistrationForm, fieldsValid: bool, uid: UserId, id: Uuid)
    requires uid !in db.users
    requires id !in db.authors
    requires AccountsInvariant(db)
    ensures var r := Register(db, form, fieldsValid, uid, id);
            r.Registered? ==> AccountsInvariant(r.db)
  {
    if fieldsValid && !EmailTaken(db.authors, form.email) {
      var u := User(form.username, form.email, form.firstName, form.lastName, false);
      RegisterNeverRefusesProfile(db, form, fieldsValid, uid, id);
      NewAccountKeepsInvariant(db, uid, u, id);
    }
  }

  /** Registration keeps the store referentially intact. */
  lemma RegisterPreservesValid(db: Db, form: RegistrationForm, fieldsValid: bool, uid: UserId, id: Uuid)
    requires uid !in db.users
    requires id !in db.authors
    requires Valid(db)
    ensures Register(db, form, fieldsValid, uid, id).Registered? ==> Valid(Register(db, form, fieldsValid, uid, id).db)
    ensures Register(db, form, fieldsValid, uid, id).ProfileRefused? ==>
              Valid(Register(db, form, fieldsValid, uid, id).db)
  {
  }
}

=== FILE: admin.dfy ===
/** The admin site's computed columns and its status filter (blogs/admin.py). */
module Admin {
  import opened Types
  import opened Models
  import Seqs
  import Store

  /** How many characters of content the post list shows. */
  const ShortContentLength: nat := 75

  /** `short_content`: content longer than 75 characters is cut to 75 and marked
      with "..."; shorter content is shown whole. */
  function ShortContent(content: string): (r: string)
    ensures |content| <= ShortContentLength ==> r == content
    ensures |content| > ShortContentLength ==> |r| == ShortContentLength + 3
    ensures |content| > ShortContentLength ==> r[ShortContentLength..] == "..."
    ensures |content| > ShortContentLength ==> r[..ShortContentLength] <= content
  {
    if |content| > ShortContentLength then content[..ShortContentLength] + "..." else content
  }

  /** The column never shows more than 78 characters, and what it shows before
      any added marker is the start of the content. */
  lemma ShortContentIsBoundedPrefix(content: string)
    ensures |ShortContent(content)| <= ShortContentLength + 3
    ensures |content| <= ShortContentLength ==> ShortContent(content) <= content
    ensures |content| > ShortContentLength ==>
              ShortContent(content)[..|ShortContent(content)| - 3] <= content
  {
  }

  /** `StatusFilter.lookups`: the filter's choices, as (value, label) pairs. */
  function StatusLookups(): (r: seq<(string, string)>)
    ensures |r| == 3
    ensures forall i :: 0 <= i < |r| ==>
              ParseStatus(r[i].0).Some? && r[i].1 == StatusLabel(ParseStatus(r[i].0).value)
  {
    [("draft", "Draft"), ("published", "Published"), ("archived", "Archived")]
  }

  /** The filter offers every status, each exactly once. */
  lemma StatusLookupsCoverStatus(s: Status)
    ensures exists i :: 0 <= i < |StatusLookups()| && StatusLookups()[i] == (StatusValue(s), StatusLabel(s))
    ensures forall i, j :: 0 <= i < j < |StatusLookups()| ==> StatusLookups()[i].0 != StatusLookups()[j].0
  {
    var r := StatusLookups();
    match s
    case Draft => assert r[0] == (StatusValue(s), StatusLabel(s));
    case Published => assert r[1] == (StatusValue(s), StatusLabel(s));
    case Archived => assert r[2] == (StatusValue(s), StatusLabel(s));
  }

  /** `StatusFilter.queryset`: with no chosen value the list is unchanged;
      otherwise it keeps, in order, the posts whose stored status is that value. */
  function StatusFilterQueryset(posts: seq<BlogPost>, value: Option<string>): (r: seq<BlogPost>)
    ensures Blank(value) ==> r == posts
    ensures !Blank(value) ==> forall p :: p in r <==> p in posts && StatusValue(p.status) == value.value
    ensures Seqs.IsSubsequence(r, posts)
    ensures !Blank(value) ==>
              forall p :: multiset(r)[p] == if StatusValue(p.status) == value.value then multiset(posts)[p] else 0
  {
    if Blank(value) then
      assert Seqs.IsSubsequence(posts, posts) by { Seqs.FilterAll(posts, (p: BlogPost) => true); }
      posts
    else Seqs.Filter(posts, (p: BlogPost) => StatusValue(p.status) == value.value)
  }

  /** Choosing a status offered by the lookups keeps exactly the posts in that
      status, each as often as it occurs. */
  lemma StatusFilterSelectsStatus(posts: seq<BlogPost>, s: Status)
    ensures forall p :: p in StatusFilterQueryset(posts, Some(StatusValue(s))) <==> p in posts && p.status == s
    ensures forall p :: multiset(StatusFilterQueryset(posts, Some(StatusValue(s))))[p] ==
                        if p.status == s then multiset(posts)[p] else 0
  {
    forall p: BlogPost
      ensures StatusValue(p.status) == StatusValue(s) <==> p.status == s
    {
      StatusValueInjective(p.status, s);
    }
  }

  /** `author_name`: the author's full name, or "Anonymous" for a post without one. */
  function AuthorName(authors: map<Uuid, Author>, post: BlogPost): (r: string)
    requires post.author.Some? ==> post.author.value in authors
    ensures post.author.None? ==> r == "Anonymous"
    ensures post.author.Some? ==> r == FullName(authors[post.author.value])
  {
    if post.author.Some? then FullName(authors[post.author.value]) else "Anonymous"
  }

  /** Once an author is deleted, each of their posts is listed as by "Anonymous". */
  lemma DeletedAuthorShowsAnonymous(db: Store.Db, author: Uuid, post: Uuid)
    requires Store.Valid(db)
    requires post in db.posts && db.posts[post].author == Some(author)
    ensures var db' := Store.DeleteAuthor(db, author);
            Store.Valid(db') && AuthorName(db'.authors, db'.posts[post]) == "Anonymous"
  {
    Store.DeleteAuthorPreservesValid(db, author);
  }
}

=== FILE: lifecycle.dfy ===
/** What happens to a post every time it is saved (`BlogPost.save`,
    blogs/models.py): a slug is assigned if it has none, the publication time is
    stamped on first publication, and an excerpt is derived from the content if
    there is none. */
module Lifecycle {
  import opened Types
  import opened Models
  import Slugs

  /** How many characters of content the excerpt is cut from. */
  const ExcerptSourceLength: nat := 247

  /** The marker appended to every derived excerpt. */
  const Ellipsis: string := "..."

  /** Python's `s[:n]`: the first `n` characters, or all of `s` if it is shorter. */
  function Take(s: string, n: nat): (r: string)
    ensures |r| <= n && r <= s
    ensures |s| <= n ==> r == s
    ensures |s| > n ==> |r| == n
  {
    if |s| <= n then s else s[..n]
  }

  /** The position of the last occurrence of `c` in `s`, if any. */
  function LastIndexOf(s: string, c: char): (r: Option<nat>)
    ensures r.Some? ==> r.value < |s| && s[r.value] == c
    ensures r.Some? ==> forall j :: r.value < j < |s| ==> s[j] != c
    ensures r.None? <==> c !in s
  {
    if |s| == 0 then None
    else if s[|s| - 1] == c then Some(|s| - 1)
    else
      var r := LastIndexOf(s[..|s| - 1], c);
      assert c !in s[..|s| - 1] ==> c !in s by {
        assert s == s[..|s| - 1] + [s[|s| - 1]];
      }
      r
  }

  /** Python's `s.rsplit(sep, 1)[0]`: everything before the last `sep`, or all of
      `s` when it contains no `sep`. */
  function BeforeLast(s: string, sep: char): (r: string)
    ensures r <= s
    ensures sep !in s ==> r == s
    ensures sep in s ==> |r| < |s| && s[|r|] == sep && sep !in s[|r| + 1..]
  {
    match LastIndexOf(s, sep)
    case Some(i) => s[..i]
    case None => s
  }

  /** The excerpt derived from `content`: its first 247 characters cut back to
      before their last space, followed by "...". */
  function Excerpt(content: string): (e: string)
    ensures |e| >= |Ellipsis| && e[|e| - |Ellipsis|..] == Ellipsis
    ensures |e| <= ExcerptSourceLength + |Ellipsis|
    ensures e[..|e| - |Ellipsis|] <= content
    ensures var head := Take(content, ExcerptSourceLength);
            var kept := e[..|e| - |Ellipsis|];
            && (' ' !in head ==> kept == head)
            && (' ' in head ==> |kept| < |head| && head[|kept|] == ' ' && ' ' !in head[|kept| + 1..])
  {
    var kept := BeforeLast(Take(content, ExcerptSourceLength), ' ');
    assert (kept + Ellipsis)[..|kept|] == kept;
    kept + Ellipsis
  }

  /** The save-time normalisation of everything but the slug search: `slug` is
      the slug the search produced, used only when the post has none. */
  function Normalise(p: BlogPost, slug: string, now: Time): (q: BlogPost)
    ensures p.slug != "" ==> q.slug == p.slug
    ensures p.slug == "" ==> q.slug == slug
    ensures p.publishedAt.Some? ==> q.publishedAt == p.publishedAt
    ensures !p.isPublished ==> q.publishedAt == p.publishedAt
    ensures p.isPublished && p.publishedAt.None? ==> q.publishedAt == Some(now)
    ensures (p.content == "" || !Blank(p.excerpt)) ==> q.excerpt == p.excerpt
    ensures p.content != "" && Blank(p.excerpt) ==> q.excerpt == Some(Excerpt(p.content))
    ensures q == p.(slug := q.slug, publishedAt := q.publishedAt, excerpt := q.excerpt)
  {
    var p1 := if p.slug == "" then p.(slug := slug) else p;
    var p2 := if p1.isPublished && p1.publishedAt.None? then p1.(publishedAt := Some(now)) else p1;
    if p2.content != "" && Blank(p2.excerpt) then p2.(excerpt := Some(Excerpt(p2.content))) else p2
  }

  /** `BlogPost.save`: the slug search runs only for a post without a slug, over
      the slugs of the stored posts (`taken`). */
  method Save(p: BlogPost, slugify: string -> string, taken: set<string>, now: Time)
    returns (q: BlogPost)
    ensures p.slug != "" ==> q.slug == p.slug
    ensures p.slug == "" ==> Slugs.IsUniqueSlugFor(slugify(p.title), taken, q.slug)
    ensures p.publishedAt.Some? ==> q.publishedAt == p.publishedAt
    ensures !p.isPublished ==> q.publishedAt == p.publishedAt
    ensures p.isPublished && p.publishedAt.None? ==> q.publishedAt == Some(now)
    ensures (p.content == "" || !Blank(p.excerpt)) ==> q.excerpt == p.excerpt
    ensures p.content != "" && Blank(p.excerpt) ==> q.excerpt == Some(Excerpt(p.content))
    ensures q == p.(slug := q.slug, publishedAt := q.publishedAt, excerpt := q.excerpt)
    ensures q == Normalise(p, q.slug, now)
  {
    var slug := p.slug;
    if p.slug == "" {
      slug := Slugs.GenerateUniqueSlug(slugify, p.title, taken);
    }
    q := Normalise(p, slug, now);
  }

  /** Saving a saved post again changes nothing, whatever the clock says, as long
      as the first save left it with a slug: the slug is never recomputed, the
      publication time never overwritten, the excerpt never re-derived. */
  lemma NormaliseIdempotent(p: BlogPost, slug: string, now: Time, slug': string, later: Time)
    requires Normalise(p, slug, now).slug != ""
    ensures Normalise(Normalise(p, slug, now), slug', later) == Normalise(p, slug, now)
  {
  }

  /** Editing the title or content of a saved post keeps its slug and its excerpt. */
  lemma EditKeepsSlugAndExcerpt(p: BlogPost, title: string, content: string, slug: string, now: Time)
    requires p.slug != ""
    requires !Blank(p.excerpt)
    ensures Normalise(p.(title := title, content := content), slug, now).slug == p.slug
    ensures Normalise(p.(title := title, content := content), slug, now).excerpt == p.excerpt
  {
  }

  /** Even content shorter than the cut that contains a space loses its last word. */
  lemma ShortContentLosesLastWord()
    ensures Excerpt("hello world") == "hello..."
  {
    var head := Take("hello world", ExcerptSourceLength);
    assert head == "hello world";
    assert head[5] == ' ';
    assert ' ' in head;
    var kept := Excerpt("hello world")[..|Excerpt("hello world")| - 3];
    assert head[..|kept|] == kept;
  }
}

=== FILE: models.dfy ===
/** The records of the blog: authors, posts and comments, the publication
    status, and the checks a post must pass before it is stored
    (blogs/models.py). */
module Models {
  import opened Types
  import Seqs

  /** The three publication states a post can be in. */
  datatype Status = Draft | Published | Archived

  /** The value a status is stored and submitted as. */
  function StatusValue(s: Status): string
  {
    match s
    case Draft => "draft"
    case Published => "published"
    case Archived => "archived"
  }

  /** The human-readable label shown next to a status. */
  function StatusLabel(s: Status): string
  {
    match s
    case Draft => "Draft"
    case Published => "Published"
    case Archived => "Archived"
  }

  /** Reads a stored or submitted status value back; anything else is not a status. */
  function ParseStatus(v: string): (r: Option<Status>)
    ensures r.Some? ==> StatusValue(r.value) == v
  {
    if v == "draft" then Some(Draft)
    else if v == "published" then Some(Published)
    else if v == "archived" then Some(Archived)
    else None
  }

  /** Every status survives being stored as its value and read back. */
  lemma StatusRoundTrip(s: Status)
    ensures ParseStatus(StatusValue(s)) == Some(s)
  {
  }

  /** Distinct statuses are stored as distinct values. */
  lemma StatusValueInjective(s: Status, t: Status)
    ensures StatusValue(s) == StatusValue(t) ==> s == t
  {
    StatusRoundTrip(s);
    StatusRoundTrip(t);
  }

  /** A user account of the identity provider, as far as the blog reads it. */
  datatype User = User(
    username: string,
    email: string,
    firstName: string,
    lastName: string,
    isSuperuser: bool)

  /** The author profile attached one-to-one to a user account. */
  datatype Author = Author(user: UserId, firstName: string, lastName: string, email: string)

  /** The display name of an author: first and last name joined by one space. */
  function FullName(a: Author): (r: string)
    ensures |r| == |a.firstName| + 1 + |a.lastName|
    ensures r[..|a.firstName|] == a.firstName
    ensures r[|a.firstName|] == ' '
    ensures r[|a.firstName| + 1..] == a.lastName
  {
    a.firstName + " " + a.lastName
  }

  /** A blog post. The uploaded image and the created/updated timestamps are not
      modelled; `author` is None once the author has been deleted. */
  datatype BlogPost = BlogPost(
    title: string,
    slug: string,
    content: string,
    excerpt: Option<string>,
    isPublished: bool,
    publishedAt: Option<Time>,
    status: Status,
    author: Option<Uuid>)

  /** A comment on a post; a comment with a parent is a reply to that comment. */
  datatype Comment = Comment(
    author: Option<Uuid>,
    content: string,
    parent: Option<Uuid>,
    post: Uuid)

  /** The two ways a post can fail model validation. */
  datatype CleanError =
    | MissingPublishedDate  // "Published posts must have a published date."
    | NotMarkedPublished    // "Post marked as published must have 'is_published=True'"

  /** Model validation of a post. Only the Published status is constrained; the
      missing date is reported before the missing flag. */
  function Clean(p: BlogPost): (r: Outcome<CleanError>)
    ensures r == Pass <==> (p.status == Published ==> p.publishedAt.Some? && p.isPublished)
    ensures r == Fail(MissingPublishedDate) <==> p.status == Published && p.publishedAt.None?
    ensures r == Fail(NotMarkedPublished) <==>
              p.status == Published && p.publishedAt.Some? && !p.isPublished
  {
    if p.status == Published then
      if p.publishedAt.None? then Fail(MissingPublishedDate)
      else if !p.isPublished then Fail(NotMarkedPublished)
      else Pass
    else Pass
  }

  /** Drafts and archived posts pass validation whatever their flag and date say. */
  lemma CleanIgnoresUnpublished(p: BlogPost, flag: bool, date: Option<Time>)
    requires p.status != Published
    ensures Clean(p.(isPublished := flag, publishedAt := date)) == Pass
  {
  }

  /** The `publishes` manager: only posts flagged as published. */
  function PublishedPosts(posts: seq<BlogPost>): (r: seq<BlogPost>)
    ensures forall p :: p in r <==> p in posts && p.isPublished
    ensures Seqs.IsSubsequence(r, posts)
    ensures forall p :: multiset(r)[p] == if p.isPublished then multiset(posts)[p] else 0
  {
    Seqs.Filter(posts, (p: BlogPost) => p.isPublished)
  }

  /** The manager's `published_at` query: published posts stamped with exactly
      `at`; with `at` null it is an `IS NULL` lookup, the published posts with no date. */
  function PublishedAt(posts: seq<BlogPost>, at: Option<Time>): (r: seq<BlogPost>)
    ensures forall p :: p in r <==> p in posts && p.isPublished && p.publishedAt == at
    ensures Seqs.IsSubsequence(r, PublishedPosts(posts))
    ensures forall p :: multiset(r)[p] == if p.isPublished && p.publishedAt == at then multiset(posts)[p] else 0
  {
    Seqs.Filter(PublishedPosts(posts), (p: BlogPost) => p.publishedAt == at)
  }
}

=== FILE: seqs.dfy ===
/** Order-preserving selection from a query result, the shape of every
    `queryset.filter(...)` the blog performs over an ordered result. */
module Seqs {

  /** `r` is obtained from `s` by dropping some elements, keeping the order of the rest. */
  predicate IsSubsequence<T(==)>(r: seq<T>, s: seq<T>)
    decreases |s|
  {
    if |r| == 0 then true
    else if |s| == 0 then false
    else (r[0] == s[0] && IsSubsequence(r[1..], s[1..])) || IsSubsequence(r, s[1..])
  }

  /** The elements of `s` that satisfy `keep`, in their original order. */
  function Filter<T(==,!new)>(s: seq<T>, keep: T -> bool): (r: seq<T>)
    ensures |r| <= |s|
    ensures forall x :: x in r <==> x in s && keep(x)
    ensures IsSubsequence(r, s)
    ensures forall x :: multiset(r)[x] == if keep(x) then multiset(s)[x] else 0
  {
    if |s| == 0 then []
    else
      assert s == [s[0]] + s[1..];
      if keep(s[0]) then [s[0]] + Filter(s[1..], keep)
      else Filter(s[1..], keep)
  }

  /** Filtering with a condition every element meets changes nothing. */
  lemma {:induction false} FilterAll<T(!new)>(s: seq<T>, keep: T -> bool)
    requires forall i :: 0 <= i < |s| ==> keep(s[i])
    ensures Filter(s, keep) == s
  {
    if |s| > 0 {
      FilterAll(s[1..], keep);
      assert s == [s[0]] + s[1..];
    }
  }
}

=== FILE: slugs.dfy ===
/** Unique slug search (`BlogPost.generate_unique_slug`, blogs/models.py). The
    title is normalised by an outside function (`slugify`); if that base slug is
    already used by a stored post, the numbered variants `base-1`, `base-2`, ...
    are tried in turn until one is free. */
module Slugs {

  /** The decimal digit character for `d`. */
  function Digit(d: nat): char
    requires d < 10
  {
    "0123456789"[d]
  }

  /** The value of a decimal digit character. */
  function DigitValue(c: char): nat
    requires '0' <= c <= '9'
  {
    (c - '0') as nat
  }

  predicate IsDigits(s: string)
  {
    forall i :: 0 <= i < |s| ==> '0' <= s[i] <= '9'
  }

  /** The decimal text of `n`, as an f-string renders an int: no sign, no leading zeros. */
  function DecimalString(n: nat): (r: string)
    ensures 1 <= |r|
    ensures IsDigits(r)
    ensures |r| > 1 ==> r[0] != '0'
    decreases n
  {
    if n < 10 then [Digit(n)] else DecimalString(n / 10) + [Digit(n % 10)]
  }

  /** Reads a decimal text back into a number. */
  function ParseDecimal(s: string): nat
    requires IsDigits(s)
  {
    if |s| == 0 then 0 else ParseDecimal(s[..|s| - 1]) * 10 + DigitValue(s[|s| - 1])
  }

  /** Rendering a number and reading it back gives the number. */
  lemma {:induction false} DecimalRoundTrip(n: nat)
    ensures ParseDecimal(DecimalString(n)) == n
    decreases n
  {
    var s := DecimalString(n);
    if n >= 10 {
      DecimalRoundTrip(n / 10);
      assert s[..|s| - 1] == DecimalString(n / 10);
    }
  }

  /** Distinct numbers render as distinct texts. */
  lemma DecimalInjective(j: nat, k: nat)
    requires DecimalString(j) == DecimalString(k)
    ensures j == k
  {
    DecimalRoundTrip(j);
    DecimalRoundTrip(k);
  }

  /** The `k`-th numbered variant of a base slug: `base-k`. */
  function Suffixed(base: string, k: nat): (r: string)
    ensures |r| > |base|
    ensures r[..|base|] == base && r[|base|] == '-'
    ensures r[|base| + 1..] == DecimalString(k)
  {
    base + "-" + DecimalString(k)
  }

  /** The candidates tried in order: the base slug itself, then `base-1`, `base-2`, ... */
  function Candidate(base: string, i: nat): string
  {
    if i == 0 then base else Suffixed(base, i)
  }

  /** Distinct positions in the search order are distinct slugs. */
  lemma CandidateInjective(base: string, i: nat, j: nat)
    requires Candidate(base, i) == Candidate(base, j)
    ensures i == j
  {
    if i != 0 && j != 0 {
      var s := Suffixed(base, i);
      assert s[|base| + 1..] == DecimalString(i);
      assert Suffixed(base, j)[|base| + 1..] == DecimalString(j);
      DecimalInjective(i, j);
    }
  }

  /** If the first `n` candidates are all taken, at least `n` slugs are taken. */
  lemma {:induction false} TakenCandidatesBound(base: string, taken: set<string>, n: nat)
    requires forall i :: 0 <= i < n ==> Candidate(base, i) in taken
    ensures n <= |taken|
    decreases n
  {
    if n > 0 {
      var last := Candidate(base, n - 1);
      var rest := taken - {last};
      forall i | 0 <= i < n - 1
        ensures Candidate(base, i) in rest
      {
        if Candidate(base, i) == last {
          CandidateInjective(base, i, n - 1);
        }
      }
      TakenCandidatesBound(base, rest, n - 1);
    }
  }

  /** `base-k` is free and every earlier numbered variant is taken. */
  ghost predicate FirstFreeSuffix(base: string, taken: set<string>, k: nat)
  {
    && 1 <= k
    && Suffixed(base, k) !in taken
    && forall j :: 1 <= j < k ==> Suffixed(base, j) in taken
  }

  /** `slug` is what the search yields for `base`: the base itself when free,
      otherwise the numbered variant with the smallest free suffix. */
  ghost predicate IsUniqueSlugFor(base: string, taken: set<string>, slug: string)
  {
    && slug !in taken
    && (base !in taken ==> slug == base)
    && (base in taken ==> exists k: nat :: FirstFreeSuffix(base, taken, k) && slug == Suffixed(base, k))
  }

  /** The search itself. `taken` is the set of slugs of the stored posts; it is
      finite, so at most `|taken|` candidates are rejected. */
  method GenerateUniqueSlug(slugify: string -> string, title: string, taken: set<string>)
    returns (slug: string)
    ensures slug !in taken
    ensures slugify(title) !in taken ==> slug == slugify(title)
    ensures slugify(title) in taken ==>
              exists k: nat :: FirstFreeSuffix(slugify(title), taken, k) && slug == Suffixed(slugify(title), k)
  {
    var base := slugify(title);
    slug := base;
    var counter: nat := 1;
    while slug in taken
      invariant 1 <= counter
      invariant slug == Candidate(base, counter - 1)
      invariant forall i :: 0 <= i < counter - 1 ==> Candidate(base, i) in taken
      decreases |taken| - counter + 1
    {
      TakenCandidatesBound(base, taken, counter);
      slug := base + "-" + DecimalString(counter);
      counter := counter + 1;
    }
    if counter > 1 {
      assert FirstFreeSuffix(base, taken, counter - 1) by {
        forall j | 1 <= j < counter - 1
          ensures Suffixed(base, j) in taken
        {
          assert Candidate(base, j) in taken;
        }
      }
    }
  }

  /** The smallest free suffix is unique: the search result is determined by
      the base slug and the taken set alone. */
  lemma {:induction false} UniqueSlugDeterministic(base: string, taken: set<string>, s1: string, s2: string)
    requires IsUniqueSlugFor(base, taken, s1)
    requires IsUniqueSlugFor(base, taken, s2)
    ensures s1 == s2
  {
    if base in taken {
      var k1: nat :| FirstFreeSuffix(base, taken, k1) && s1 == Suffixed(base, k1);
      var k2: nat :| FirstFreeSuffix(base, taken, k2) && s2 == Suffixed(base, k2);
      assert !(k1 < k2) by {
        assert Suffixed(base, k1) !in taken;
      }
      assert !(k2 < k1) by {
        assert Suffixed(base, k2) !in taken;
      }
    }
  }

  /** A title that slugifies to "" is stored with the empty slug when that is
      free; on its next save the empty slug counts as taken, by the post itself,
      so the slug moves to "-1". */
  lemma {:induction false} EmptySlugMovesOnResave(taken: set<string>, slug: string)
    requires "" in taken && "-1" !in taken
    requires IsUniqueSlugFor("", taken, slug)
    ensures slug == "-1"
  {
    var k: nat :| FirstFreeSuffix("", taken, k) && slug == Suffixed("", k);
    assert Suffixed("", 1) == "-1" by {
      assert DecimalString(1) == "1";
    }
  }

  /** A second post with the same title gets a slug that differs from the first
      post's only by a numeric suffix. */
  lemma SameTitleGetsSuffix(slugify: string -> string, title: string, taken: set<string>, slug: string)
    requires slugify(title) in taken
    requires IsUniqueSlugFor(slugify(title), taken, slug)
    ensures slug != slugify(title)
    ensures |slug| > |slugify(title)| + 1
    ensures slug[..|slugify(title)|] == slugify(title) && slug[|slugify(title)|] == '-'
    ensures IsDigits(slug[|slugify(title)| + 1..])
  {
  }
}

=== FILE: store.dfy ===
/** The datastore: users, authors, posts and comments keyed by id, and what the
    foreign keys' delete rules do (blogs/models.py): deleting a post deletes its
    comments, deleting a comment deletes its replies (transitively), and
    deleting an author clears the author of their posts and comments. */
module Store {
  import opened Types
  import opened Models

  datatype Db = Db(
    users: map<UserId, User>,
    authors: map<Uuid, Author>,
    posts: map<Uuid, BlogPost>,
    comments: map<Uuid, Comment>)

  /** Referential integrity, as the foreign keys enforce it. */
  ghost predicate Valid(db: Db)
  {
    && (forall a :: a in db.authors ==> db.authors[a].user in db.users)
    && (forall p :: p in db.posts && db.posts[p].author.Some? ==> db.posts[p].author.value in db.authors)
    && (forall c :: c in db.comments ==> db.comments[c].post in db.posts)
    && (forall c :: c in db.comments && db.comments[c].author.Some? ==>
                     db.comments[c].author.value in db.authors)
    && (forall c :: c in db.comments && db.comments[c].parent.Some? ==>
                     db.comments[c].parent.value in db.comments)
  }

  /** Every reply is attached to a comment of its own post. The views never
      enforce this; it holds only when every submitted parent id was honest. */
  ghost predicate SameThread(cs: map<Uuid, Comment>)
  {
    forall c :: c in cs && cs[c].parent.Some? && cs[c].parent.value in cs ==>
      cs[cs[c].parent.value].post == cs[c].post
  }

  /** The slugs used by stored posts: the set the slug search must avoid. */
  function SlugsInUse(db: Db): (r: set<string>)
    ensures forall p :: p in db.posts ==> db.posts[p].slug in r
    ensures forall s :: s in r ==> exists p :: p in db.posts && db.posts[p].slug == s
  {
    set p | p in db.posts :: db.posts[p].slug
  }

  /** No two stored posts share a slug (the column's unique constraint). */
  ghost predicate SlugsUnique(db: Db)
  {
    forall p, q :: p in db.posts && q in db.posts && p != q ==> db.posts[p].slug != db.posts[q].slug
  }

  /** Storing a post under `id` keeps slugs unique when it keeps the slug the
      record under `id` had, or takes one no stored post uses. */
  lemma StorePostKeepsSlugsUnique(db: Db, id: Uuid, q: BlogPost)
    ensures SlugsUnique(db) && ((id in db.posts && q.slug == db.posts[id].slug) || q.slug !in SlugsInUse(db)) ==>
              SlugsUnique(db.(posts := db.posts[id := q]))
  {
  }

  /** Storing a post whose author, if any, is a stored author keeps the store
      referentially intact. */
  lemma StorePostKeepsValid(db: Db, id: Uuid, q: BlogPost)
    requires Valid(db)
    requires q.author.Some? ==> q.author.value in db.authors
    ensures Valid(db.(posts := db.posts[id := q]))
  {
  }

  /** The direct replies to any comment in `s`. */
  function RepliesTo(cs: map<Uuid, Comment>, s: set<Uuid>): (r: set<Uuid>)
    ensures r <= cs.Keys
    ensures forall c :: c in r <==> c in cs && cs[c].parent.Some? && cs[c].parent.value in s
  {
    set c | c in cs && cs[c].parent.Some? && cs[c].parent.value in s
  }

  /** `s` contains every reply to each of its members. */
  ghost predicate ClosedUnderReplies(cs: map<Uuid, Comment>, s: set<Uuid>)
  {
    forall c :: c in cs && cs[c].parent.Some? && cs[c].parent.value in s ==> c in s
  }

  /** Growing `s` strictly inside `keys` strictly shrinks what is left of `keys`. */
  lemma SmallerRemainder<T>(keys: set<T>, s: set<T>, next: set<T>)
    requires s < next <= keys
    ensures |keys - next| < |keys - s|
  {
    var x :| x in next && x !in s;
    assert keys - s == (keys - next) + (next - s);
    assert x in next - s;
  }

  /** The comments a cascade starting at `s` deletes: `s`, their replies, the
      replies to those, and so on. */
  function Cascade(cs: map<Uuid, Comment>, s: set<Uuid>): (r: set<Uuid>)
    requires s <= cs.Keys
    ensures s <= r <= cs.Keys
    ensures ClosedUnderReplies(cs, r)
    decreases |cs.Keys - s|
  {
    var next := s + RepliesTo(cs, s);
    if next == s then s
    else
      SmallerRemainder(cs.Keys, s, next);
      Cascade(cs, next)
  }

  /** The cascade deletes nothing it need not: it lies inside every reply-closed
      set that contains its starting comments. */
  lemma {:induction false} CascadeLeast(cs: map<Uuid, Comment>, s: set<Uuid>, t: set<Uuid>)
    requires s <= cs.Keys
    requires s <= t
    requires ClosedUnderReplies(cs, t)
    ensures Cascade(cs, s) <= t
    decreases |cs.Keys - s|
  {
    var next := s + RepliesTo(cs, s);
    if next != s {
      SmallerRemainder(cs.Keys, s, next);
      CascadeLeast(cs, next, t);
    }
  }

  /** Every comment the cascade deletes is a starting comment or a reply to a
      deleted comment. */
  lemma {:induction false} CascadeGrounded(cs: map<Uuid, Comment>, s: set<Uuid>, c: Uuid)
    requires s <= cs.Keys
    requires c in Cascade(cs, s)
    ensures c in s || (cs[c].parent.Some? && cs[c].parent.value in Cascade(cs, s))
    decreases |cs.Keys - s|
  {
    var next := s + RepliesTo(cs, s);
    if next != s {
      SmallerRemainder(cs.Keys, s, next);
      CascadeGrounded(cs, next, c);
      if c in next && c !in s {
        assert c in RepliesTo(cs, s);
      }
    }
  }

  /** Deletes the comments in `doomed` and everything that cascades from them. */
  function RemoveComments(db: Db, doomed: set<Uuid>): (r: Db)
    requires doomed <= db.comments.Keys
    ensures r.users == db.users && r.authors == db.authors && r.posts == db.posts
    ensures r.comments.Keys == db.comments.Keys - Cascade(db.comments, doomed)
    ensures forall c :: c in doomed ==> c !in r.comments
    ensures forall c :: c in r.comments ==> r.comments[c] == db.comments[c]
    ensures forall c :: c in r.comments && r.comments[c].parent.Some? ==>
              (r.comments[c].parent.value in db.comments ==> r.comments[c].parent.value in r.comments)
  {
    var gone := Cascade(db.comments, doomed);
    db.(comments := map c | c in db.comments && c !in gone :: db.comments[c])
  }

  /** The comments posted on `post`. */
  function CommentsOf(cs: map<Uuid, Comment>, post: Uuid): (r: set<Uuid>)
    ensures r <= cs.Keys
    ensures forall c :: c in r <==> c in cs && cs[c].post == post
  {
    set c | c in cs && cs[c].post == post
  }

  /** Deleting a post (`on_delete=CASCADE` on `Comment.post`): the post goes, and
      so does every comment on it together with every reply below those. */
  function DeletePost(db: Db, post: Uuid): (r: Db)
    ensures r.users == db.users && r.authors == db.authors
    ensures r.posts.Keys == db.posts.Keys - {post}
    ensures forall p :: p in r.posts ==> r.posts[p] == db.posts[p]
    ensures forall c :: c in db.comments && db.comments[c].post == post ==> c !in r.comments
    ensures r.comments.Keys == db.comments.Keys - Cascade(db.comments, CommentsOf(db.comments, post))
    ensures forall c :: c in r.comments ==> c in db.comments && r.comments[c] == db.comments[c]
    ensures forall c :: c in r.comments && r.comments[c].parent.Some? ==>
              (r.comments[c].parent.value in db.comments ==> r.comments[c].parent.value in r.comments)
  {
    var rest := RemoveComments(db, CommentsOf(db.comments, post));
    rest.(posts := map p | p in db.posts && p != post :: db.posts[p])
  }

  /** When every reply stays within its post, deleting a post removes exactly
      the comments on it and no others. */
  lemma DeletePostRemovesExactlyItsComments(db: Db, post: Uuid)
    requires SameThread(db.comments)
    ensures forall c :: c in DeletePost(db, post).comments <==> c in db.comments && db.comments[c].post != post
  {
    var own := CommentsOf(db.comments, post);
    assert ClosedUnderReplies(db.comments, own);
    CascadeLeast(db.comments, own, own);
  }

  /** Deleting a comment (`on_delete=CASCADE` on `Comment.parent`): the comment
      and every reply below it go. */
  function DeleteComment(db: Db, comment: Uuid): (r: Db)
    ensures r.users == db.users && r.authors == db.authors && r.posts == db.posts
    ensures comment !in r.comments
    ensures comment in db.comments ==> r.comments.Keys == db.comments.Keys - Cascade(db.comments, {comment})
    ensures comment !in db.comments ==> r.comments == db.comments
    ensures forall c :: c in r.comments ==> c in db.comments && r.comments[c] == db.comments[c]
    ensures forall c :: c in r.comments && r.comments[c].parent.Some? ==>
              (r.comments[c].parent.value in db.comments ==> r.comments[c].parent.value in r.comments)
  {
    if comment in db.comments then RemoveComments(db, {comment}) else db
  }

  /** Deleting a comment leaves every other top-level comment in place. */
  lemma DeleteCommentSparesOtherRoots(db: Db, comment: Uuid, other: Uuid)
    requires other in db.comments && other != comment
    requires db.comments[other].parent.None?
    ensures other in DeleteComment(db, comment).comments
  {
    if comment in db.comments {
      var gone := Cascade(db.comments, {comment});
      var t := gone - {other};
      assert ClosedUnderReplies(db.comments, t);
      CascadeLeast(db.comments, {comment}, t);
    }
  }

  /** A nullable author reference after `author` is deleted. */
  function Unlink(ref: Option<Uuid>, author: Uuid): (r: Option<Uuid>)
    ensures ref == Some(author) ==> r.None?
    ensures ref != Some(author) ==> r == ref
  {
    if ref == Some(author) then None else ref
  }

  /** Deleting an author (`on_delete=SET_NULL` on both author keys): their posts
      and comments survive, with no author. */
  function DeleteAuthor(db: Db, author: Uuid): (r: Db)
    ensures r.users == db.users
    ensures r.authors.Keys == db.authors.Keys - {author}
    ensures forall a :: a in r.authors ==> r.authors[a] == db.authors[a]
    ensures r.posts.Keys == db.posts.Keys && r.comments.Keys == db.comments.Keys
    ensures forall p :: p in db.posts ==>
              r.posts[p] == db.posts[p].(author := Unlink(db.posts[p].author, author))
    ensures forall c :: c in db.comments ==>
              r.comments[c] == db.comments[c].(author := Unlink(db.comments[c].author, author))
  {
    Db(
      db.users,
      map a | a in db.authors && a != author :: db.authors[a],
      map p | p in db.posts :: db.posts[p].(author := Unlink(db.posts[p].author, author)),
      map c | c in db.comments :: db.comments[c].(author := Unlink(db.comments[c].author, author)))
  }

  /** Deleting a post keeps the store referentially intact. */
  lemma DeletePostPreservesValid(db: Db, post: Uuid)
    requires Valid(db)
    ensures Valid(DeletePost(db, post))
  {
  }

  /** Deleting a comment keeps the store referentially intact. */
  lemma DeleteCommentPreservesValid(db: Db, comment: Uuid)
    requires Valid(db)
    ensures Valid(DeleteComment(db, comment))
  {
  }

  /** Deleting an author keeps the store referentially intact. */
  lemma DeleteAuthorPreservesValid(db: Db, author: Uuid)
    requires Valid(db)
    ensures Valid(DeleteAuthor(db, author))
  {
    var r := DeleteAuthor(db, author);
    forall p | p in r.posts && r.posts[p].author.Some?
      ensures r.posts[p].author.value in r.authors
    {
      assert r.posts[p].author == Unlink(db.posts[p].author, author);
    }
    forall c | c in r.comments && r.comments[c].author.Some?
      ensures r.comments[c].author.value in r.authors
    {
      assert r.comments[c].author == Unlink(db.comments[c].author, author);
    }
    forall c | c in r.comments
      ensures r.comments[c].post in r.posts
      ensures r.comments[c].parent.Some? ==> r.comments[c].parent.value in r.comments
    {
      assert r.comments[c].post == db.comments[c].post;
      assert r.comments[c].parent == db.comments[c].parent;
    }
  }
}

=== FILE: types.dfy ===
/** Shared vocabulary of the blog model: optional values, pass/fail outcomes
    and the identifiers the datastore hands out. */
module Types {

  /** A nullable value: a nullable column or an absent form field. */
  datatype Option<+T> = None | Some(value: T)

  /** The result of a validation step: it passes, or fails with an error. */
  datatype Outcome<+E> = Pass | Fail(error: E)

  /** A value, or the error that stopped its computation. */
  datatype Result<+T, +E> = Ok(value: T) | Err(error: E)

  /** Python's truthiness of an optional text: None and "" are both blank. */
  predicate Blank(o: Option<string>)
  {
    o.None? || o.value == ""
  }

  /** Primary keys of authors, posts and comments are UUIDs, kept as their text. */
  type Uuid = string

  /** Primary key of a user account in the identity provider. */
  type UserId = nat

  /** A point in time, as an opaque ordered number. */
  type Time = int
}

=== FILE: views.dfy ===
/** The request handlers of the blog (blogs/views.py): who may edit or delete a
    post, what creating, updating and deleting a post and adding a comment do
    to the store, which comments the detail page lists, and when a
    notification mail is attempted. Rendering, messages, redirects and the mail
    transport itself are outside the model; a response names the page the
    request ends on. */
module Views {
  import opened Types
  import opened Models
  import opened Store
  import opened Lifecycle
  import Slugs
  import Accounts

  /** The logged-in user making a request: their account, whether it is a
      superuser, and the author profile `user.author` reaches, if any. */
  datatype Requester = Requester(user: UserId, isSuperuser: bool, author: Option<Uuid>)

  /** The requester is a stored account, and `author` is what the reverse
      one-to-one lookup `user.author` finds: the author linked to the account,
      or none when no author is (the author hook was refused). */
  ghost predicate SignedIn(db: Db, req: Requester)
  {
    && req.user in db.users
    && (req.author.Some? ==> req.author.value in db.authors && db.authors[req.author.value].user == req.user)
    && (req.author.None? ==> forall a :: a in db.authors ==> db.authors[a].user != req.user)
  }

  /** The fields of the post form. */
  datatype PostForm = PostForm(title: string, content: string, isPublished: bool, publishedAt: Option<Time>)

  /** Why a notification mail is sent. */
  datatype Event = Created | Updated | Deleted

  /** An attempted notification mail; `delivered` is false when the mail service failed. */
  datatype Notice = Notice(event: Event, recipient: string, delivered: bool)

  /** The page a request ends on. */
  datatype Response =
    | ShowPost(slug: string)  // redirect to the post's detail page
    | ShowList                // redirect to the post list
    | FormErrors              // the form is shown again with its errors
    | Forbidden               // 403: neither the author nor a superuser
    | NotFound                // 404: no such post
    | ServerError             // 500: an exception escaped the view

  /** A character the `<slug:slug>` path converter accepts: an ASCII letter or
      digit, a hyphen or an underscore. */
  predicate SlugChar(c: char)
  {
    ('a' <= c <= 'z') || ('A' <= c <= 'Z') || ('0' <= c <= '9') || c == '-' || c == '_'
  }

  /** The detail URL can be reversed for `slug`: it matches `[-a-zA-Z0-9_]+`.
      Reversing any other slug, the empty one included, raises. */
  predicate Reversible(slug: string)
  {
    |slug| > 0 && forall i :: 0 <= i < |slug| ==> SlugChar(slug[i])
  }

  /** What a request leaves behind: the store, the response, and the mail attempted. */
  datatype Reply = Reply(db: Db, response: Response, notice: Option<Notice>)

  /** The update and delete views' `test_func` raises: it reads `user.author`
      for a requester who is not a superuser, and their account has no author. */
  predicate AuthorLookupFails(req: Requester)
  {
    !req.isSuperuser && req.author.None?
  }

  /** The update and delete views' `test_func` passes: a superuser, or the
      post's own author. */
  predicate MayModify(req: Requester, post: BlogPost)
  {
    req.isSuperuser || (req.author.Some? && post.author == req.author)
  }

  /** The address of the user account behind an author. */
  function AuthorEmail(db: Db, author: Uuid): string
    requires Valid(db)
    requires author in db.authors
  {
    db.users[db.authors[author].user].email
  }

  /** The mail gate: a notification is attempted only for a non-empty address, and
      a failing mail service only marks the notice undelivered. */
  function Notify(event: Event, email: string, mailFails: bool): (n: Option<Notice>)
    ensures n.Some? <==> email != ""
    ensures n.Some? ==> n.value.event == event && n.value.recipient == email
    ensures n.Some? ==> (n.value.delivered <==> !mailFails)
  {
    if email != "" then Some(Notice(event, email, !mailFails)) else None
  }

  /** A new post as the create form builds it: no slug or excerpt yet, Draft status. */
  function NewPost(form: PostForm, author: Option<Uuid>): BlogPost
  {
    BlogPost(form.title, "", form.content, None, form.isPublished, form.publishedAt, Draft, author)
  }

  /** A stored post with the edit form's fields applied. */
  function Edited(p: BlogPost, form: PostForm): BlogPost
  {
    p.(title := form.title, content := form.content, isPublished := form.isPublished,
       publishedAt := form.publishedAt)
  }

  /** `BlogCreateView`: the form and the model's `clean` are checked first; then
      the requester's author becomes the post's author, which fails for an
      account without one, and the post is saved under the fresh id `id`; the
      author is then notified. `fieldsValid` stands for the form's own field
      validation. */
  method CreatePost(db: Db, req: Requester, form: PostForm, fieldsValid: bool,
                    slugify: string -> string, now: Time, id: Uuid, mailFails: bool)
    returns (r: Reply)
    requires Valid(db)
    requires SignedIn(db, req)
    requires id !in db.posts
    ensures !fieldsValid ==> r == Reply(db, FormErrors, None)
    ensures fieldsValid && req.author.None? ==> r == Reply(db, ServerError, None)
    ensures fieldsValid && req.author.Some? ==> id in r.db.posts && r.db == db.(posts := db.posts[id := r.db.posts[id]])
    ensures fieldsValid && req.author.Some? ==>
              r.db.posts[id] == Normalise(NewPost(form, req.author), r.db.posts[id].slug, now)
    ensures fieldsValid && req.author.Some? ==>
              Slugs.IsUniqueSlugFor(slugify(form.title), SlugsInUse(db), r.db.posts[id].slug)
    ensures fieldsValid && req.author.Some? && Reversible(r.db.posts[id].slug) ==>
              && r.response == ShowPost(r.db.posts[id].slug)
              && r.notice == Notify(Created, AuthorEmail(db, req.author.value), mailFails)
    ensures fieldsValid && req.author.Some? && !Reversible(r.db.posts[id].slug) ==>
              r.response == ServerError && r.notice == None
  {
    if !fieldsValid || Clean(NewPost(form, req.author)) != Pass {
      return Reply(db, FormErrors, None);
    }
    if req.author.None? {
      return Reply(db, ServerError, None);
    }
    var q := Save(NewPost(form, req.author), slugify, SlugsInUse(db), now);
    r := StoreNew(db, id, q, mailFails);
  }

  /** The end of a creation, once the new post `q` has been saved: it is stored
      under the fresh id `id`, then the redirect to its detail page is built,
      and only then is its author notified. A slug the detail URL cannot carry
      (the empty slug of a title that slugifies to nothing, say) makes that
      redirect raise: the post stays stored, the request fails and no mail is
      attempted. A post whose author exists and whose slug is not in use keeps
      the store intact and its slugs distinct. */
  function StoreNew(db: Db, id: Uuid, q: BlogPost, mailFails: bool): (r: Reply)
    requires Valid(db)
    requires id !in db.posts && q.author.Some? && q.author.value in db.authors
    ensures r.db == db.(posts := db.posts[id := q])
    ensures Reversible(q.slug) ==>
              r.response == ShowPost(q.slug) && r.notice == Notify(Created, AuthorEmail(db, q.author.value), mailFails)
    ensures !Reversible(q.slug) ==> r.response == ServerError && r.notice == None
    ensures Valid(r.db)
    ensures SlugsUnique(db) && q.slug !in SlugsInUse(db) ==> SlugsUnique(r.db)
  {
    var db' := db.(posts := db.posts[id := q]);
    StorePostKeepsValid(db, id, q);
    StorePostKeepsSlugsUnique(db, id, q);
    if !Reversible(q.slug) then Reply(db', ServerError, None)
    else Reply(db', ShowPost(q.slug), Notify(Created, AuthorEmail(db, q.author.value), mailFails))
  }

  /** A new post whose title slugifies to nothing, while no post has the empty
      slug, is stored with it, and its create request fails without a mail. */
  lemma EmptySlugCreateFails(db: Db, id: Uuid, q: BlogPost, mailFails: bool)
    requires Valid(db)
    requires id !in db.posts && q.author.Some? && q.author.value in db.authors
    requires q.slug == ""
    ensures var r := StoreNew(db, id, q, mailFails);
            id in r.db.posts && r.db.posts[id].slug == "" && r.response == ServerError && r.notice.None?
  {
  }

  /** An edit the update view goes on to save: the post exists, the requester
      may modify it, and the edited post passes the form and `clean`. */
  predicate EditAccepted(db: Db, req: Requester, id: Uuid, form: PostForm, fieldsValid: bool)
  {
    id in db.posts && MayModify(req, db.posts[id]) && fieldsValid && Clean(Edited(db.posts[id], form)) == Pass
  }

  /** `BlogUpdateView`: authorisation first, then the form, then the save. The
      mail address is read through the post's author only after the save, so
      for a post whose author was deleted the change is stored and the request
      still fails. */
  method UpdatePost(db: Db, req: Requester, id: Uuid, form: PostForm, fieldsValid: bool,
                    slugify: string -> string, now: Time, mailFails: bool)
    returns (r: Reply)
    requires Valid(db)
    ensures id !in db.posts ==> r == Reply(db, NotFound, None)
    ensures id in db.posts && AuthorLookupFails(req) ==> r == Reply(db, ServerError, None)
    ensures id in db.posts && !AuthorLookupFails(req) && !MayModify(req, db.posts[id]) ==>
              r == Reply(db, Forbidden, None)
    ensures id in db.posts && MayModify(req, db.posts[id]) ==>
              ((!fieldsValid || Clean(Edited(db.posts[id], form)) != Pass) ==> r == Reply(db, FormErrors, None))
    ensures EditAccepted(db, req, id, form, fieldsValid) ==>
              id in r.db.posts && r.db.posts[id] == Normalise(Edited(db.posts[id], form), r.db.posts[id].slug, now)
    ensures EditAccepted(db, req, id, form, fieldsValid) ==> r == StoreUpdate(db, id, r.db.posts[id], mailFails)
    ensures EditAccepted(db, req, id, form, fieldsValid) && db.posts[id].slug != "" ==>
              r.db.posts[id].slug == db.posts[id].slug
    ensures EditAccepted(db, req, id, form, fieldsValid) && db.posts[id].slug == "" ==>
              Slugs.IsUniqueSlugFor(slugify(form.title), SlugsInUse(db), r.db.posts[id].slug)
    ensures r.db != db ==> id in db.posts && (req.isSuperuser || (req.author.Some? && db.posts[id].author == req.author))
  {
    if id !in db.posts {
      return Reply(db, NotFound, None);
    }
    var stored := db.posts[id];
    if AuthorLookupFails(req) {
      return Reply(db, ServerError, None);
    }
    if !MayModify(req, stored) {
      return Reply(db, Forbidden, None);
    }
    var p := Edited(stored, form);
    if !fieldsValid || Clean(p) != Pass {
      return Reply(db, FormErrors, None);
    }
    var q := Save(p, slugify, SlugsInUse(db), now);
    r := StoreUpdate(db, id, q, mailFails);
  }

  /** The end of an update, once the edited post `q` has been saved: it is stored
      under `id`, the redirect to its detail page is built (which raises for a
      slug the URL cannot carry), and then its author's address is read for the
      notice. */
  function StoreUpdate(db: Db, id: Uuid, q: BlogPost, mailFails: bool): (r: Reply)
    requires Valid(db)
    requires id in db.posts && q.author == db.posts[id].author
    ensures r.db == db.(posts := db.posts[id := q])
    ensures (!Reversible(q.slug) || q.author.None?) ==> r.response == ServerError && r.notice == None
    ensures Reversible(q.slug) && q.author.Some? ==>
              r.response == ShowPost(q.slug) && r.notice == Notify(Updated, AuthorEmail(db, q.author.value), mailFails)
    ensures Valid(r.db)
    ensures SlugsUnique(db) && (q.slug == db.posts[id].slug || q.slug !in SlugsInUse(db)) ==> SlugsUnique(r.db)
  {
    var db' := db.(posts := db.posts[id := q]);
    StorePostKeepsValid(db, id, q);
    StorePostKeepsSlugsUnique(db, id, q);
    if !Reversible(q.slug) || q.author.None? then Reply(db', ServerError, None)
    else Reply(db', ShowPost(q.slug), Notify(Updated, AuthorEmail(db, q.author.value), mailFails))
  }

  /** `BlogDeleteView`, as written: the mail address is read through the post's
      author before anything else, so a post without an author cannot be deleted. */
  function DeletePostRequest(db: Db, req: Requester, id: Uuid, mailFails: bool): (r: Reply)
    requires Valid(db)
    ensures id !in db.posts ==> r == Reply(db, NotFound, None)
    ensures id in db.posts && AuthorLookupFails(req) ==> r == Reply(db, ServerError, None)
    ensures id in db.posts && !AuthorLookupFails(req) && !MayModify(req, db.posts[id]) ==>
              r == Reply(db, Forbidden, None)
    ensures id in db.posts && MayModify(req, db.posts[id]) && db.posts[id].author.None? ==>
              r == Reply(db, ServerError, None)
    ensures id in db.posts && MayModify(req, db.posts[id]) && db.posts[id].author.Some? ==>
              && r.db == DeletePost(db, id) && r.response == ShowList
              && r.notice == Notify(Deleted, AuthorEmail(db, db.posts[id].author.value), mailFails)
    ensures id in db.posts ==> (id in r.db.posts <==> r.db == db)
  {
    if id !in db.posts then Reply(db, NotFound, None)
    else
      var post := db.posts[id];
      if AuthorLookupFails(req) then Reply(db, ServerError, None)
      else if !MayModify(req, post) then Reply(db, Forbidden, None)
      else if post.author.None? then Reply(db, ServerError, None)
      else Reply(DeletePost(db, id), ShowList, Notify(Deleted, AuthorEmail(db, post.author.value), mailFails))
  }

  /** A superuser deleting a post whose author was deleted gets an error and the
      post stays. */
  lemma OrphanPostCannotBeDeleted(db: Db, req: Requester, id: Uuid, mailFails: bool)
    requires Valid(db)
    requires id in db.posts && db.posts[id].author.None?
    ensures DeletePostRequest(db, req, id, mailFails).response in {Forbidden, ServerError}
    ensures id in DeletePostRequest(db, req, id, mailFails).db.posts
  {
  }

  /** Only a superuser or the post's own author can delete it, and only a
      requester with an author profile or superuser rights gets past the check. */
  lemma OnlyOwnerOrSuperuserDeletes(db: Db, req: Requester, id: Uuid, mailFails: bool)
    requires Valid(db)
    ensures DeletePostRequest(db, req, id, mailFails).db != db ==>
              id in db.posts && (req.isSuperuser || (req.author.Some? && db.posts[id].author == req.author))
    ensures DeletePostRequestFixed(db, req, id, mailFails).db != db ==>
              id in db.posts && (req.isSuperuser || (req.author.Some? && db.posts[id].author == req.author))
    ensures id in db.posts && !req.isSuperuser && req.author.None? ==>
              DeletePostRequest(db, req, id, mailFails).response == ServerError
  {
  }

  /** While every account has its author, `user.author` never fails: the
      requester-side server errors come only from an account the author hook
      refused. */
  lemma EveryRequesterHasAProfile(db: Db, req: Requester)
    requires Accounts.AccountsInvariant(db)
    requires SignedIn(db, req)
    ensures req.author.Some?
    ensures !AuthorLookupFails(req)
  {
  }

  /** The address a deletion notice goes to, with an absent author meaning no
      address at all. */
  function RecipientOf(db: Db, author: Option<Uuid>): (e: string)
    requires Valid(db)
    requires author.Some? ==> author.value in db.authors
    ensures author.None? ==> e == ""
  {
    if author.Some? then AuthorEmail(db, author.value) else ""
  }

  /** `BlogDeleteView` as evidently intended: a post without an author is deleted
      without a notification. */
  function DeletePostRequestFixed(db: Db, req: Requester, id: Uuid, mailFails: bool): (r: Reply)
    requires Valid(db)
    ensures id !in db.posts ==> r == Reply(db, NotFound, None)
    ensures id in db.posts && AuthorLookupFails(req) ==> r == Reply(db, ServerError, None)
    ensures id in db.posts && !AuthorLookupFails(req) && !MayModify(req, db.posts[id]) ==>
              r == Reply(db, Forbidden, None)
    ensures id in db.posts && MayModify(req, db.posts[id]) ==>
              && r.db == DeletePost(db, id) && r.response == ShowList
              && r.notice == Notify(Deleted, RecipientOf(db, db.posts[id].author), mailFails)
  {
    if id !in db.posts then Reply(db, NotFound, None)
    else
      var post := db.posts[id];
      if AuthorLookupFails(req) then Reply(db, ServerError, None)
      else if !MayModify(req, post) then Reply(db, Forbidden, None)
      else Reply(DeletePost(db, id), ShowList, Notify(Deleted, RecipientOf(db, post.author), mailFails))
  }

  /** With the fix, every authorised delete removes the post, keeps the store
      intact, and agrees with the view as written wherever that one succeeds. */
  lemma {:induction false} AuthorisedDeleteSucceeds(db: Db, req: Requester, id: Uuid, mailFails: bool)
    requires Valid(db)
    requires id in db.posts && MayModify(req, db.posts[id])
    ensures id !in DeletePostRequestFixed(db, req, id, mailFails).db.posts
    ensures Valid(DeletePostRequestFixed(db, req, id, mailFails).db)
    ensures DeletePostRequest(db, req, id, mailFails).response != ServerError ==>
              DeletePostRequest(db, req, id, mailFails) == DeletePostRequestFixed(db, req, id, mailFails)
  {
    DeletePostPreservesValid(db, id);
  }

  /** A failing mail service never changes the store or the page a deletion ends on. */
  lemma MailFailureIsInvisible(db: Db, req: Requester, id: Uuid)
    requires Valid(db)
    ensures DeletePostRequest(db, req, id, true).db == DeletePostRequest(db, req, id, false).db
    ensures DeletePostRequest(db, req, id, true).response == DeletePostRequest(db, req, id, false).response
  {
  }

  /** The comment's parent as submitted: a non-empty `parent_id` is taken as is,
      an empty or missing one makes a top-level comment. */
  function ParentOf(parentId: string): (r: Option<Uuid>)
    ensures r.Some? <==> parentId != ""
    ensures r.Some? ==> r.value == parentId
  {
    if parentId != "" then Some(parentId) else None
  }

  /** `BlogDetailView.post`: a valid comment is stored under the fresh id `id`
      with the requester's author and the viewed post; the submitted parent id
      is not checked against the post. A parent id naming no stored comment
      fails the foreign key and nothing is stored. */
  function AddComment(db: Db, req: Requester, post: Uuid, fieldsValid: bool, content: string,
                      parentId: string, id: Uuid): (r: Reply)
    requires Valid(db)
    requires SignedIn(db, req)
    requires id !in db.comments
    ensures r.notice.None?
    ensures post !in db.posts ==> r == Reply(db, NotFound, None)
    ensures post in db.posts && !fieldsValid ==> r == Reply(db, ShowPost(db.posts[post].slug), None)
    ensures post in db.posts && fieldsValid && req.author.None? ==> r == Reply(db, ServerError, None)
    ensures post in db.posts && fieldsValid && parentId != "" && parentId !in db.comments ==>
              r == Reply(db, ServerError, None)
    ensures post in db.posts && fieldsValid && req.author.Some? && (parentId == "" || parentId in db.comments) ==>
              && r.db == db.(comments := db.comments[id := Comment(req.author, content, ParentOf(parentId), post)])
              && r.response == ShowPost(db.posts[post].slug)
    ensures Valid(r.db)
  {
    if post !in db.posts then Reply(db, NotFound, None)
    else if !fieldsValid then Reply(db, ShowPost(db.posts[post].slug), None)
    else if req.author.None? then Reply(db, ServerError, None)
    else
      var parent := ParentOf(parentId);
      if parent.Some? && parent.value !in db.comments then Reply(db, ServerError, None)
      else
        var c := Comment(req.author, content, parent, post);
        Reply(db.(comments := db.comments[id := c]), ShowPost(db.posts[post].slug), None)
  }

  /** Since the parent id is trusted, a reply can be attached to a comment of a
      different post, and the same-thread invariant is lost. */
  lemma AddCommentCanCrossPosts(db: Db, req: Requester, post: Uuid, content: string, parentId: string, id: Uuid)
    requires Valid(db)
    requires SignedIn(db, req) && req.author.Some?
    requires id !in db.comments
    requires post in db.posts
    requires parentId != "" && parentId in db.comments && db.comments[parentId].post != post
    ensures !SameThread(AddComment(db, req, post, true, content, parentId, id).db.comments)
  {
    var cs := AddComment(db, req, post, true, content, parentId, id).db.comments;
    assert cs[id].parent == Some(parentId);
  }

  /** An honest parent id keeps every reply within its own post. */
  lemma AddCommentKeepsSameThread(db: Db, req: Requester, post: Uuid, fieldsValid: bool, content: string,
                                  parentId: string, id: Uuid)
    requires Valid(db)
    requires SignedIn(db, req)
    requires id !in db.comments
    requires SameThread(db.comments)
    requires parentId in db.comments ==> db.comments[parentId].post == post
    ensures SameThread(AddComment(db, req, post, fieldsValid, content, parentId, id).db.comments)
  {
  }

  /** The comments the detail page lists: those of the post without a parent. */
  function TopLevelComments(db: Db, post: Uuid): (r: set<Uuid>)
    ensures r <= db.comments.Keys
    ensures forall c :: c in r <==> c in db.comments && db.comments[c].post == post && db.comments[c].parent.None?
  {
    set c | c in db.comments && db.comments[c].post == post && db.comments[c].parent.None?
  }

  /** The replies fetched for a listed comment: every comment whose parent it is. */
  function RepliesOf(db: Db, comment: Uuid): (r: set<Uuid>)
    ensures r <= db.comments.Keys
    ensures forall c :: c in r <==> c in db.comments && db.comments[c].parent == Some(comment)
  {
    set c | c in db.comments && db.comments[c].parent == Some(comment)
  }

  /** The detail page's two-level comment tree: each listed comment with its replies. */
  function CommentTree(db: Db, post: Uuid): (t: map<Uuid, set<Uuid>>)
    ensures t.Keys == TopLevelComments(db, post)
    ensures forall c :: c in t ==> t[c] == RepliesOf(db, c)
  {
    map c | c in TopLevelComments(db, post) :: RepliesOf(db, c)
  }

  /** Every reply is to a top-level comment: threads are at most two deep. */
  ghost predicate TwoLevels(cs: map<Uuid, Comment>)
  {
    forall c :: c in cs && cs[c].parent.Some? ==>
      cs[c].parent.value in cs && cs[cs[c].parent.value].parent.None?
  }

  /** When threads stay within their post and are at most two deep, the tree of
      a post shows each of its comments exactly once and nothing else. */
  lemma CommentTreeShowsEachCommentOnce(db: Db, post: Uuid, c: Uuid)
    requires SameThread(db.comments) && TwoLevels(db.comments)
    ensures var t := CommentTree(db, post);
            && (c in db.comments && db.comments[c].post == post <==>
                  c in t || exists k :: k in t && c in t[k])
            && (c in t ==> forall k :: k in t ==> c !in t[k])
            && (forall k, k' :: k in t && k' in t && c in t[k] && c in t[k'] ==> k == k')
  {
    var t := CommentTree(db, post);
    if c in db.comments && db.comments[c].post == post && db.comments[c].parent.Some? {
      var k := db.comments[c].parent.value;
      assert k in t && c in t[k];
    }
  }

  /** A comment posted without a parent is listed on its post's page. */
  lemma NewTopLevelCommentIsListed(db: Db, req: Requester, post: Uuid, content: string, id: Uuid)
    requires Valid(db)
    requires SignedIn(db, req) && req.author.Some?
    requires id !in db.comments
    requires post in db.posts
    ensures id in TopLevelComments(AddComment(db, req, post, true, content, "", id).db, post)
  {
  }
}
